=== FILE: README.md ===
# idaweb: the station-legend and precipitation parsers, in Dafny

`idaweb.py` reads the files of weather-station data orders. A *legend*
file lists the stations of an order. After a header line
starting with `stn       Name`, each line holds:

- a station id;
- a name of one or more words;
- a parameter code (`rka150d0`, or `rre150d0`);
- a data source of zero or more words;
- the position as `D°M'/D°M'`;
- the Swiss grid coordinates as `X/Y`;
- the elevation.

A *data* file is a semicolon-separated table of daily precipitation values,
keyed by a `time` column written `YYYYMMDD`. The script does four things:

1. parses every legend file into station records;
2. turns the records into a table with decimal-degree longitudes and latitudes;
3. reads every data file, keeping the daily rows and coercing the value columns to numbers;
4. concatenates the results.

This project models that text-processing core and proves what it computes.

| module | file | models |
|---|---|---|
| `Common` | `common.dfy` | The exceptions as an `Error` inside a `Result`. Python's `list.index` and clamped slices. The filter of a comprehension. The loop that stops at the first exception (`Collect`). List concatenation. |
| `Text` | `text.dfy` | `str.split()` on whitespace (`Tokens`), `" ".join`, `str.split(sep)`, `str.strip()` emptiness and `str.startswith`. |
| `Numbers` | `numbers.dfy` | The decimal texts `float(...)` accepts, evaluated exactly over `real`. |
| `Stations` | `stations.dfy` | `parse_station_line` and `read_station_data_from_file`. |
| `Coordinates` | `coordinates.dfy` | `convert_to_dataframe`, as a method that builds the columns one after the other. |
| `Precipitation` | `precipitation.dfy` | `read_precipitation_data`: as a specification function, and as a method that computes the same table column by column (the row mask, the three coerced columns, the times, the dates). The method changes no state: it returns the table. |
| `Pipeline` | `pipeline.dfy` | The `__main__` loops that extend `stations` and append to `data`, and the run without its plot. |

The exceptions these paths raise are `Error` values, one per raise site. Two exceptions of pandas are not modelled and are listed under "Left out": the `ValueError` of `pd.to_datetime` on a time that is not a date, and the `AttributeError` of `.str` on a column pandas does not hold as text.

| error | raise site in the code |
|---|---|
| `MarkerNotFound` | the `ValueError` of a line without a marker |
| `TooFewTokens` | the `IndexError` of `parts[-3]` |
| `HeaderNotFound` | the `StopIteration` of the header search |
| `NoStations` | the `KeyError` of an empty station table |
| `NotANumber` | the `ValueError` of `astype(float)` |
| `MissingColumn` | the `KeyError` of a table without `time` |
| `TooFewColumns` | the `IndexError` of `df.columns[2]`, `[3]` or `[4]`, whichever is the first past the end of a header with fewer than five columns |
| `NothingToConcatenate` | the `ValueError` of `pd.concat([])` |

A legend file is the sequence of its lines. The reader takes the first 100
of them. A file with fewer than 100 lines makes `next(file)` raise inside the
`try`. `lines` then becomes the exception's text, which is the empty string.
The header search then walks single characters, finds nothing and raises, so
such a file is rejected even when it has a header (`HeaderMissingIff`). A data
file is the header row and the rows that `pd.read_csv` produces, every cell as
its text. A missing value of pandas is `None`.

Two details of the code that the model keeps:

- The header line is never parsed as a station. The records are those of the
  lines after it.
- The latitude is the text between the first and the second `/`
  (`split('/').str[1]`). Text after a second `/` is dropped.

## Model

| member | source | states |
|---|---|---|
| Common.IndexOf | idaweb.py:11-14 | `list.index`: absent exactly when the value is not in the list, otherwise the position of its first occurrence |
| Common.SliceBound | idaweb.py:20-22 | a slice bound counts from the end when negative; a bound below the start is 0 and one past the end is the length |
| Common.Slice | idaweb.py:20-22 | a Python slice never fails: an inverted range is empty, otherwise it holds the elements from the start bound up to the stop bound |
| Common.FilterMembers | idaweb.py:42 | the comprehension's filter keeps exactly the elements that pass |
| Common.FilterKeepsAll | idaweb.py:42 | the filter keeps everything exactly when every element passes |
| Common.FilterAppend | idaweb.py:67 | filtering a concatenation filters each part, so kept rows keep their order |
| Common.Collect | idaweb.py:104-106 | a loop that stops at the first exception succeeds exactly when every step does, with one value per step; otherwise it fails with the first failing step's error |
| Common.CollectMap | idaweb.py:42 | the same facts for `[f(x) for x in xs]` |
| Common.FlattenAppend | idaweb.py:106 | extending the list with more files appends their records |
| Common.FlattenLength | idaweb.py:117 | concatenation loses and duplicates nothing: its length is the sum of the parts' lengths |
| Text.Tokens | idaweb.py:7 | every piece of `line.split()` is non-empty and free of whitespace |
| Text.TokensSkipsBlank | idaweb.py:7 | `line.split()` skips leading whitespace of any length |
| Text.TokensOfPadded | idaweb.py:7 | `line.split()` returns exactly the tokens of a line laid out as tokens separated by non-empty whitespace runs, with optional whitespace before the first and after the last |
| Text.TokensOfJoin | idaweb.py:20-22 | splitting a `" ".join` of tokens gives back exactly those tokens |
| Text.BlankIffNoTokens | idaweb.py:42 | `line.strip()` is empty exactly when `line.split()` is empty |
| Text.SplitOn | idaweb.py:50-57 | `str.split(sep)` has at least one piece, and no piece contains the separator |
| Text.JoinSplitOn | idaweb.py:50-57 | re-joining the pieces with the separator gives back the text |
| Text.SplitOnFirst | idaweb.py:50-53 | a text with a first separator splits into what precedes it and the pieces of what follows |
| Text.SplitOnAbsent | idaweb.py:50-57 | a text without the separator is its own single piece |
| Numbers.NumberHasDigit | idaweb.py:56-57 | a text the model's number parser accepts contains a digit (the spellings `float` also takes, such as `nan`, are listed under Left out) |
| Numbers.AcceptedIsDecimal | idaweb.py:56-57 | conversely to ParseFixedPoint, every text the number parser accepts is an optional `+` or `-`, then digits, then possibly a point and more digits, with at least one digit in all |
| Numbers.AcceptedSign | idaweb.py:56-57 | an accepted text is an optional sign followed by an accepted unsigned part |
| Numbers.AcceptedBody | idaweb.py:56-57 | an accepted unsigned part is digits, or digits, a point and digits, with at least one digit |
| Numbers.ParseFixedPoint | idaweb.py:56-57 | round trip: whole digits, a point and fraction digits parse to the whole digits' value plus the fraction digits' value |
| Numbers.ShiftedFraction | idaweb.py:56-57 | the fraction digits' value, shifted as many decimal places as there are digits, is their value as a whole number (`.25` shifted two places is 25) |
| Numbers.PointThree | idaweb.py:69-71 | `0.3` parses to 0.3 |
| Numbers.EightPointTwoFive | idaweb.py:69-71 | `8.25` parses to 8.25 |
| Numbers.ParseNatText | idaweb.py:56-57 | round trip: the decimal rendering of a natural number parses back to that number |
| Numbers.ParseNegated | idaweb.py:56-57 | a leading minus sign accepts the same texts and negates the value |
| Stations.MarkerIndex | idaweb.py:10-16 | the first `rka150d0` when there is one; else the first `rre150d0`; absent exactly when neither occurs |
| Stations.Cut | idaweb.py:18-26 | the record's id is token 0, its parameter the marker token, and its position, coordinates and elevation the last three tokens in order |
| Stations.ParseStationLine | idaweb.py:6-26 | a failure is either the missing-marker error or the too-few-tokens error, carrying the line |
| Stations.ParseStationLineOutcome | idaweb.py:6-26 | missing-marker error exactly when neither marker occurs; too-few-tokens error exactly when a marker occurs among fewer than three tokens; otherwise the record holds token 0, the marker token and the last three tokens in order |
| Stations.NameAndSourceText | idaweb.py:20-22 | the name is the single-space join of the tokens between the id and the marker, and the data source that of the tokens between the marker and the last three |
| Stations.NameAndSourceTokens | idaweb.py:20-22 | splitting the name gives back exactly the tokens between the id and the marker, and splitting the data source exactly those between the marker and the last three; each is empty exactly when its range is empty |
| Stations.LineReassembles | idaweb.py:18-26 | with the marker strictly inside, the record's fields give back every token of the line, in order |
| Stations.FirstLines | idaweb.py:30-36 | a file of at least 100 lines yields exactly its first 100 lines; a shorter one yields the exception text, the empty string |
| Stations.Items | idaweb.py:36-39 | `enumerate` walks the lines, or else the exception text one character at a time |
| Stations.HeaderIndex | idaweb.py:39 | the first line starting with the header prefix; absent exactly when no line does |
| Stations.HeaderAt | idaweb.py:39 | a line starting with the header prefix, with none before it, is the one the search finds |
| Stations.ParseLines | idaweb.py:42 | the comprehension only ever fails with a line parser's error |
| Stations.SucceedsIffAllParse | idaweb.py:42 | the comprehension succeeds exactly when every non-blank line parses |
| Stations.OneRecordPerContentLine | idaweb.py:40-42 | one record per non-blank line, in order, each that line's parse |
| Stations.FirstFailureReported | idaweb.py:42 | a failure is that of the first non-blank line that does not parse |
| Stations.ReadLegend | idaweb.py:28-43 | the read of a legend fails only for want of a header or with a line parser's error, and always for want of a header when the file has fewer than 100 lines |
| Stations.HeaderMissingIff | idaweb.py:30-39 | the read fails for want of a header exactly when the file has fewer than 100 lines or none of its first 100 lines starts with the prefix |
| Stations.NoHeaderInErrorText | idaweb.py:35-39 | whatever the exception text, the header search over it fails |
| Stations.OnlyFirstLinesRead | idaweb.py:33 | lines after the 100th never change the result |
| Stations.RecordsFollowHeader | idaweb.py:33-42 | with a header among the first 100 lines, the result is the parse of the lines after the first header and before line 100 |
| Coordinates.FloatColumn | idaweb.py:56-57 | `astype(float)` succeeds exactly when every cell is missing or parses, converting each cell; otherwise it fails on the first bad text |
| Coordinates.DecimalColumn | idaweb.py:56-57 | a coordinate column converts exactly when every cell's degrees and minutes convert, each row becoming `degrees + minutes / 60`; its only failure is a text that is not a number |
| Coordinates.ConvertToDataFrame | idaweb.py:45-59 | an empty station list fails; a non-empty one succeeds exactly when every longitude and latitude converts, with one row per station in order holding the record, both decimal degrees and the raw X and Y texts |
| Coordinates.SlashPieces | idaweb.py:50-53 | longitude and X are the text before the slash, latitude and Y the text after it |
| Coordinates.DegreesMinutesPieces | idaweb.py:56-57 | in `D°M'`, the degrees text is `D` and the minutes text is `M` |
| Coordinates.ConvertedFromPieces | idaweb.py:56-57 | parsable degrees and minutes texts give `degrees + minutes / 60` |
| Coordinates.DegreesAndMinutes | idaweb.py:56-57 | `D°M'` with whole numbers converts to `D + M/60` for every `D` and `M` |
| Coordinates.NoDegreeSignIsMissing | idaweb.py:56-57 | a number without a degree sign is no error: its minutes, and so its value, are missing |
| Coordinates.EightFiftyFour | idaweb.py:56 | `8°54'` is 8.9 degrees |
| Coordinates.FortySevenThirty | idaweb.py:57 | `47°30'` is 47.5 degrees |
| Precipitation.Observe | idaweb.py:67-74 | a kept row keeps its cells; its time is the text of its `time` cell, eight characters long, split into a four-character year, a two-character month and a two-character day; its values are the coercions of columns 2, 3 and 4 |
| Precipitation.PrecipitationTable | idaweb.py:61-76 | in the model, the read succeeds exactly when the header has `time` and at least five columns, failing with the missing column or the missing fifth column otherwise; on success one observation per daily row, in order, holding that row's cells, the text of its `time` cell and the coercions of its columns 2, 3 and 4 |
| Precipitation.CoerceIsParse | idaweb.py:69-71 | coercing a cell is parsing its text; a missing cell, whose text is `nan`, is no number either |
| Precipitation.ParsableIsNumber | idaweb.py:69-71 | a kept row's value in column 2, 3 or 4 is the number its cell's text spells, whenever that text is a number |
| Precipitation.ReadPrecipitationData | idaweb.py:61-76 | the column-by-column updates compute the table the specification function describes |
| Precipitation.KeptIffDayTime | idaweb.py:67 | a row is kept exactly when its `time` text has eight characters |
| Precipitation.KeptInOrder | idaweb.py:67 | reading two tables' rows one after the other is reading their concatenation, so the kept rows stay in order |
| Precipitation.UnparsableIsMissing | idaweb.py:69-71 | a value that is not a number becomes missing; it neither drops the row nor fails the read |
| Precipitation.WorkedExamples | idaweb.py:67-71 | `20230101` is a daily time, `2023` and `total` are not, and `--` coerces to missing |
| Pipeline.CollectStations | idaweb.py:104-106 | the loop computes the concatenation of every file's records, or the first failing file's error |
| Pipeline.AllStations | idaweb.py:104-106 | collecting the stations fails only with a legend reader's error; no files give no stations |
| Pipeline.StationsInFileOrder | idaweb.py:104-106 | the stations are collected exactly when every file reads; they are then the in-order concatenation of each file's records, with no deduplication, and as many as all files hold; otherwise the error is the first failing file's |
| Pipeline.CombinedData | idaweb.py:112-117 | the combined table fails only with a precipitation reader's error or for want of tables; no tables is the `pd.concat([])` error |
| Pipeline.CombinedDataOutcome | idaweb.py:112-117 | the data concatenate exactly when there is at least one table and every table reads; otherwise, given some tables, the error is that of the first table that fails |
| Pipeline.CollectData | idaweb.py:112-117 | the loop and `pd.concat` compute the combined table, failing on the first failing file or on an empty list |
| Pipeline.DataRowCount | idaweb.py:112-117 | a combined table means every file read; its rows are every file's rows in file order, and their number is the sum of the files' row counts |
| Pipeline.Run | idaweb.py:103-117 | the run succeeds exactly when every legend reads, the stations are non-empty and convertible, and the data concatenates; station errors come first; on success row i holds collected station i with its decimal-degree longitude and latitude and its X and Y texts, plus the combined data; stations that do not all convert give a not-a-number error; convertible stations that still fail give the concatenation's error |

## Left out

- Opening files and decoding them as ISO-8859-1 are not modelled. A legend file is given as the sequence of its lines. The text of an opening failure is not modelled either; `NoHeaderInErrorText` shows that any such text makes the header search fail.
- `pd.read_csv(..., delimiter=';', skiprows=2)` is not modelled. A data file is given as its header row and rows of cell texts.
- pandas' type inference is not modelled. The `time` text is taken as the cell's text. A column pandas reads as floats would render as `20230101.0` and be dropped by the length test.
- Coordinates.ConvertToDataFrame: when no station's position has a `/`, every latitude is missing. When no longitude, or no latitude, has a `°`, every minutes text of that column is missing. If pandas then holds such an all-missing column with a non-text dtype, the `.str` of line 56 or 57 raises `AttributeError` and the conversion fails. The model does not follow pandas' dtypes: it keeps the missing values and succeeds.
- Coordinates.NoDegreeSignIsMissing: the missing value it proves is the source's result only when some other station in the same table has a `°`. When none does, the source may raise the `AttributeError` described above.
- `Numbers.ParseDecimal` accepts an optional sign, digits and at most one decimal point. It does not accept the exponents, `inf`/`nan` spellings, surrounding whitespace or digit separators that `float` also accepts. Those texts become not-a-number here.
- IEEE double rounding is not modelled: values are exact `real` numbers.
- Precipitation.PrecipitationTable: `pd.to_datetime(..., format='%Y%m%d')` raises `ValueError` on a kept time that is not a valid date, such as `20231399` or `2023ab01`, and the whole read fails. The model does not validate dates: it returns `Ok` with the year, month and day substrings. Its "succeeds exactly when" describes the model; the source succeeds on fewer tables.
- Precipitation.Observe: when `time` is itself one of columns 2 to 4, the source coerces it to a number before reading it back as text. The model keeps the original text.
- Pipeline.CollectData: `pd.concat` aligns columns by name and keeps each file's row index. The model concatenates the rows as they are.
- `plot_stations` and its geopandas, shapely and matplotlib calls are not modelled: they only draw.
- The hard-coded file paths of the entry point are not modelled. The files are parameters of `Pipeline.Run`.

=== FILE: common.dfy ===
/** Values shared by every stage of the station and precipitation pipeline:
    an optional value (pandas' missing marker), a result that carries the
    exception the Python script would raise, and two sequence operations the
    script relies on (a boolean-mask filter and list concatenation). */
module Common {

  /** `None` stands for pandas' missing value (NaN). */
  datatype Option<+T> = None | Some(value: T)

  /** The exceptions the script can raise, one constructor per raise site. */
  datatype Error =
    | MarkerNotFound(line: string)   // ValueError raised by parse_station_line
    | TooFewTokens(line: string)     // IndexError from parts[-3] on a short line
    | HeaderNotFound                 // StopIteration from next() in the header search
    | NoStations                     // KeyError: an empty DataFrame has no coordinate column
    | NotANumber(text: string)       // ValueError from astype(float)
    | MissingColumn(name: string)    // KeyError on df['time']
    | TooFewColumns                  // IndexError on df.columns[2], [3] or [4]
    | NothingToConcatenate           // ValueError from pd.concat([])

  /** A value or the exception that ended the computation; usable with `:-`. */
  datatype Result<+T> = Ok(value: T) | Err(error: Error) {
    predicate IsFailure() { Err? }

    function PropagateFailure<U>(): Result<U>
      requires Err?
    {
      Err(error)
    }

    function Extract(): T
      requires Ok?
    {
      value
    }
  }

  /** The elements of `s` that satisfy `p`, in their original order
      (a boolean mask applied to a table, or a comprehension's `if`). */
  function Filter<T>(s: seq<T>, p: T -> bool): (r: seq<T>)
    ensures |r| <= |s|
    ensures forall i :: 0 <= i < |r| ==> p(r[i])
  {
    if s == [] then []
    else if p(s[0]) then [s[0]] + Filter(s[1..], p)
    else Filter(s[1..], p)
  }

  /** A filter keeps exactly the elements that pass: each kept element comes
      from the input, and each element of the input that passes is kept. */
  lemma {:induction false} FilterMembers<T>(s: seq<T>, p: T -> bool)
    ensures forall x :: x in Filter(s, p) <==> x in s && p(x)
  {
    if s != [] {
      FilterMembers(s[1..], p);
      assert s == [s[0]] + s[1..];
    }
  }

  /** Filtering a concatenation filters each part: the kept elements keep
      their relative order. */
  lemma {:induction false} FilterAppend<T>(a: seq<T>, b: seq<T>, p: T -> bool)
    ensures Filter(a + b, p) == Filter(a, p) + Filter(b, p)
  {
    if a == [] {
      assert a + b == b;
    } else {
      assert (a + b)[1..] == a[1..] + b;
      FilterAppend(a[1..], b, p);
    }
  }

  /** A filter keeps everything exactly when every element passes. */
  lemma {:induction false} FilterKeepsAll<T>(s: seq<T>, p: T -> bool)
    ensures Filter(s, p) == s <==> forall i :: 0 <= i < |s| ==> p(s[i])
  {
    if s != [] {
      FilterKeepsAll(s[1..], p);
      if !p(s[0]) {
        assert |Filter(s, p)| <= |s[1..]| < |s|;
      } else if Filter(s, p) == s {
        assert Filter(s[1..], p) == s[1..];
      }
    }
  }

  /** Python's `list.index`: the position of the first occurrence of `x`. */
  function IndexOf<T(==)>(s: seq<T>, x: T): (r: Option<nat>)
    ensures r.None? <==> x !in s
    ensures r.Some? ==> r.value < |s| && s[r.value] == x
    ensures r.Some? ==> forall j :: 0 <= j < r.value ==> s[j] != x
  {
    if s == [] then None
    else if s[0] == x then Some(0)
    else match IndexOf(s[1..], x)
      case None => None
      case Some(i) => Some(i + 1)
  }

  /** Where a Python slice bound lands in a sequence of length `n`: a
      negative bound counts from the end, and both are clamped to `0..n`. */
  function SliceBound(i: int, n: nat): (b: nat)
    ensures b <= n
    ensures 0 <= i <= n ==> b == i
    ensures -(n as int) <= i < 0 ==> b as int == n as int + i
    ensures i < -(n as int) ==> b == 0
    ensures i > n ==> b == n
  {
    if i < 0 then (if i + n < 0 then 0 else i + n) else if i > n then n else i
  }

  /** Python's `s[start:stop]`: never fails, and an inverted range is empty. */
  function Slice<T>(s: seq<T>, start: int, stop: int): (r: seq<T>)
    ensures |r| <= |s|
    ensures SliceBound(start, |s|) >= SliceBound(stop, |s|) ==> r == []
    ensures SliceBound(start, |s|) < SliceBound(stop, |s|) ==>
      |r| == SliceBound(stop, |s|) - SliceBound(start, |s|) &&
      forall k :: 0 <= k < |r| ==> r[k] == s[SliceBound(start, |s|) + k]
  {
    var lo, hi := SliceBound(start, |s|), SliceBound(stop, |s|);
    if lo < hi then s[lo..hi] else []
  }

  /** The values of a list of results, or the first failure among them: what
      a loop that stops at the first exception has gathered. */
  function Collect<T>(rs: seq<Result<T>>): (r: Result<seq<T>>)
    ensures r.Ok? <==> forall i :: 0 <= i < |rs| ==> rs[i].Ok?
    ensures r.Ok? ==> |r.value| == |rs| && forall i :: 0 <= i < |rs| ==> rs[i] == Ok(r.value[i])
    ensures r.Err? ==>
      exists k :: 0 <= k < |rs| && rs[k] == Err(r.error) && forall j :: 0 <= j < k ==> rs[j].Ok?
  {
    if rs == [] then Ok([])
    else
      var init := rs[..|rs| - 1];
      assert forall i :: 0 <= i < |init| ==> init[i] == rs[i];
      match Collect(init)
      case Err(e) => Err(e)
      case Ok(vs) =>
        match rs[|rs| - 1]
        case Err(e) => Err(e)
        case Ok(v) => Ok(vs + [v])
  }

  /** A loop that has seen only successes before step `i` stops there when step `i` fails. */
  lemma CollectStopsAt<T>(rs: seq<Result<T>>, i: nat)
    requires i < |rs| && rs[i].Err?
    requires forall j :: 0 <= j < i ==> rs[j].Ok?
    ensures Collect(rs) == Err(rs[i].error)
  {
  }

  /** A loop whose every step succeeds gathers exactly their values. */
  lemma CollectAll<T>(rs: seq<Result<T>>, vs: seq<T>)
    requires |vs| == |rs| && forall j :: 0 <= j < |rs| ==> rs[j] == Ok(vs[j])
    ensures Collect(rs) == Ok(vs)
  {
    assert forall j :: 0 <= j < |rs| ==> rs[j].Ok?;
    var r := Collect(rs).value;
    assert forall j :: 0 <= j < |rs| ==> r[j] == vs[j];
    assert r == vs;
  }

  /** `[f(x) for x in xs]`. */
  function Map<A, B>(xs: seq<A>, f: A -> B): (ys: seq<B>)
    ensures |ys| == |xs| && forall i :: 0 <= i < |xs| ==> ys[i] == f(xs[i])
  {
    seq(|xs|, i requires 0 <= i < |xs| => f(xs[i]))
  }

  /** Applying a fallible step to each element and stopping at the first
      failure: it succeeds exactly when every step does, with one value per
      element, and otherwise fails as the first failing step does. */
  lemma CollectMap<A, T>(xs: seq<A>, f: A -> Result<T>)
    ensures Collect(Map(xs, f)).Ok? <==> forall i :: 0 <= i < |xs| ==> f(xs[i]).Ok?
    ensures Collect(Map(xs, f)).Ok? ==>
      |Collect(Map(xs, f)).value| == |xs| &&
      forall i :: 0 <= i < |xs| ==> f(xs[i]) == Ok(Collect(Map(xs, f)).value[i])
    ensures Collect(Map(xs, f)).Err? ==>
      exists k :: 0 <= k < |xs| && f(xs[k]) == Err(Collect(Map(xs, f)).error) &&
        forall j :: 0 <= j < k ==> f(xs[j]).Ok?
  {
    var rs := Map(xs, f);
    if Collect(rs).Err? {
      var k :| 0 <= k < |rs| && rs[k] == Err(Collect(rs).error) && forall j :: 0 <= j < k ==> rs[j].Ok?;
      assert f(xs[k]) == rs[k];
    }
  }

  /** The concatenation of a list of lists (`extend` in a loop, or `pd.concat`). */
  function Flatten<T>(xss: seq<seq<T>>): seq<T>
  {
    if xss == [] then [] else Flatten(xss[..|xss| - 1]) + xss[|xss| - 1]
  }

  /** The total length of a list of lists. */
  function TotalLength<T>(xss: seq<seq<T>>): nat
  {
    if xss == [] then 0 else TotalLength(xss[..|xss| - 1]) + |xss[|xss| - 1]|
  }

  /** Concatenation distributes over appending lists of lists. */
  lemma {:induction false} FlattenAppend<T>(a: seq<seq<T>>, b: seq<seq<T>>)
    ensures Flatten(a + b) == Flatten(a) + Flatten(b)
  {
    if b == [] {
      assert a + b == a;
    } else {
      assert (a + b)[..|a + b| - 1] == a + b[..|b| - 1];
      FlattenAppend(a, b[..|b| - 1]);
    }
  }

  /** Extending by one more list appends its elements. */
  lemma FlattenSnoc<T>(xss: seq<seq<T>>, xs: seq<T>)
    ensures Flatten(xss + [xs]) == Flatten(xss) + xs
  {
    assert (xss + [xs])[..|xss|] == xss;
  }

  /** Nothing is lost or duplicated: the concatenation is as long as all parts together. */
  lemma {:induction false} FlattenLength<T>(xss: seq<seq<T>>)
    ensures |Flatten(xss)| == TotalLength(xss)
  {
    if xss != [] {
      FlattenLength(xss[..|xss| - 1]);
    }
  }
}

=== FILE: coordinates.dfy ===
/** The coordinate normaliser (`convert_to_dataframe`): one table row per
    station, with the `D°M'/D°M'` field split into longitude and latitude in
    decimal degrees and the `X/Y` field split into its two raw text pieces. */
module Coordinates {
  import opened Common
  import opened Text
  import opened Numbers
  import opened Stations

  const Degree := '\U{B0}'
  const ArcMinute := '\''
  const Slash := '/'

  /** A row of the station table: the record's seven columns and the four
      derived ones. `None` is pandas' missing value. */
  datatype StationRow = StationRow(
    station: Station,
    longitude: Option<real>,
    latitude: Option<real>,
    x: string,
    y: Option<string>)

  /** `.str[i]` after a split: the piece, or a missing value past the end. */
  function Piece(ps: seq<string>, i: nat): Option<string>
  {
    if i < |ps| then Some(ps[i]) else None
  }

  /** The longitude text: everything before the first slash. */
  function LonText(st: Station): Option<string>
  {
    Piece(SplitOn(st.lonLat, Slash), 0)
  }

  /** The latitude text: between the first and the second slash, if there is a first. */
  function LatText(st: Station): Option<string>
  {
    Piece(SplitOn(st.lonLat, Slash), 1)
  }

  function XText(st: Station): string
  {
    SplitOn(st.coordinates, Slash)[0]
  }

  function YText(st: Station): Option<string>
  {
    Piece(SplitOn(st.coordinates, Slash), 1)
  }

  /** `.str.split('°').str[0]`: the degrees text, before the first degree sign. */
  function DegreesPart(t: Option<string>): Option<string>
  {
    match t
    case None => None
    case Some(s) => Some(SplitOn(s, Degree)[0])
  }

  /** `.str.split('°').str[1].str.split("'").str[0]`: the minutes text, after
      the degree sign and before the arc-minute sign; missing without a degree sign. */
  function MinutesPart(t: Option<string>): Option<string>
  {
    match t
    case None => None
    case Some(s) =>
      match Piece(SplitOn(s, Degree), 1)
      case None => None
      case Some(m) => Some(SplitOn(m, ArcMinute)[0])
  }

  /** A cell `astype(float)` accepts: a missing value, or text that parses. */
  predicate Parses(t: Option<string>)
  {
    t.None? || ParseDecimal(t.value).Some?
  }

  function ParseCell(t: Option<string>): Option<real>
    requires Parses(t)
  {
    if t.None? then None else ParseDecimal(t.value)
  }

  /** `astype(float)` on a column: every cell converted, or the failure on the
      first text that does not parse. */
  function FloatColumn(texts: seq<Option<string>>): (r: Result<seq<Option<real>>>)
    ensures r.Ok? <==> forall i :: 0 <= i < |texts| ==> Parses(texts[i])
    ensures r.Ok? ==>
      |r.value| == |texts| && forall i :: 0 <= i < |texts| ==> r.value[i] == ParseCell(texts[i])
    ensures r.Err? ==>
      exists i :: 0 <= i < |texts| && !Parses(texts[i]) && r.error == NotANumber(texts[i].value) &&
        forall j :: 0 <= j < i ==> Parses(texts[j])
  {
    if texts == [] then Ok([])
    else if !Parses(texts[0]) then Err(NotANumber(texts[0].value))
    else match FloatColumn(texts[1..])
      case Err(e) =>
        ghost var i :| 0 <= i < |texts[1..]| && !Parses(texts[1..][i]) &&
          e == NotANumber(texts[1..][i].value) && forall j :: 0 <= j < i ==> Parses(texts[1..][j]);
        assert forall j :: 0 <= j < i + 1 ==> Parses(texts[j]) by {
          assert forall j :: 1 <= j < i + 1 ==> texts[j] == texts[1..][j - 1];
        }
        Err(e)
      case Ok(rest) => Ok([ParseCell(texts[0])] + rest)
  }

  /** `degrees + minutes / 60`, missing when either operand is. */
  function Combine(degrees: Option<real>, minutes: Option<real>): Option<real>
  {
    if degrees.Some? && minutes.Some? then Some(degrees.value + minutes.value / 60.0) else None
  }

  /** A coordinate text the conversion does not fail on. */
  predicate Convertible(t: Option<string>)
  {
    Parses(DegreesPart(t)) && Parses(MinutesPart(t))
  }

  /** The decimal degrees of a `D°M'` text. */
  function DecimalDegrees(t: Option<string>): Option<real>
    requires Convertible(t)
  {
    Combine(ParseCell(DegreesPart(t)), ParseCell(MinutesPart(t)))
  }

  /** One line of the conversion (`df['Longitude'] = ...` or the latitude's):
      the degrees column and then the minutes column go through
      `astype(float)`, and each row becomes `degrees + minutes / 60`. */
  function DecimalColumn(texts: seq<Option<string>>): (r: Result<seq<Option<real>>>)
    ensures r.Ok? <==> forall i :: 0 <= i < |texts| ==> Convertible(texts[i])
    ensures r.Ok? ==>
      && |r.value| == |texts|
      && forall i :: 0 <= i < |texts| ==>
           Convertible(texts[i]) && r.value[i] == DecimalDegrees(texts[i])
    ensures r.Err? ==> r.error.NotANumber?
  {
    var n := |texts|;
    match FloatColumn(Map(texts, DegreesPart))
    case Err(e) => Err(e)
    case Ok(degrees) =>
      match FloatColumn(Map(texts, MinutesPart))
      case Err(e) => Err(e)
      case Ok(minutes) =>
        Ok(seq(n, i requires 0 <= i < n => Combine(degrees[i], minutes[i])))
  }

  /** `convert_to_dataframe`: builds the columns one after the other, as the
      source assigns them, and fails where `astype(float)` or the empty
      table's missing column would raise. */
  method ConvertToDataFrame(stations: seq<Station>) returns (r: Result<seq<StationRow>>)
    ensures stations == [] ==> r == Err(NoStations)
    ensures r.Ok? <==>
      stations != [] &&
      forall i :: 0 <= i < |stations| ==>
        Convertible(LonText(stations[i])) && Convertible(LatText(stations[i]))
    ensures r.Err? && stations != [] ==> r.error.NotANumber?
    ensures r.Ok? ==>
      && |r.value| == |stations|
      && forall i :: 0 <= i < |stations| ==>
        && Convertible(LonText(stations[i])) && Convertible(LatText(stations[i]))
        && r.value[i] == StationRow(stations[i],
             DecimalDegrees(LonText(stations[i])), DecimalDegrees(LatText(stations[i])),
             XText(stations[i]), YText(stations[i]))
  {
    if stations == [] {
      return Err(NoStations);
    }
    var n := |stations|;
    var lonText := Map(stations, LonText);
    var latText := Map(stations, LatText);
    var x := Map(stations, XText);
    var y := Map(stations, YText);
    var lon :- DecimalColumn(lonText);
    var lat :- DecimalColumn(latText);
    r := Ok(seq(n, i requires 0 <= i < n => StationRow(stations[i], lon[i], lat[i], x[i], y[i])));
  }

  /** In `D°M'` with digit runs `D` and `M`, the degrees text is `D` and the
      minutes text is `M`. */
  lemma DegreesMinutesPieces(ds: string, ms: string)
    requires AllDigits(ds) && AllDigits(ms)
    ensures DegreesPart(Some(ds + [Degree] + ms + [ArcMinute])) == Some(ds)
    ensures MinutesPart(Some(ds + [Degree] + ms + [ArcMinute])) == Some(ms)
  {
    NoDigitIsSign(ds, Degree);
    NoDigitIsSign(ms, Degree);
    NoDigitIsSign(ms, ArcMinute);
    assert ds + [Degree] + ms + [ArcMinute] == ds + [Degree] + (ms + [ArcMinute]);
    SplitOnFirst(ds, Degree, ms + [ArcMinute]);
    SplitOnAbsent(ms + [ArcMinute], Degree);
    assert ms + [ArcMinute] == ms + [ArcMinute] + "";
    SplitOnFirst(ms, ArcMinute, "");
  }

  /** `D°M'` with whole degrees and minutes converts to `D + M/60`. */
  lemma DegreesAndMinutes(d: nat, m: nat)
    ensures Convertible(Some(NatText(d) + [Degree] + NatText(m) + [ArcMinute]))
    ensures DecimalDegrees(Some(NatText(d) + [Degree] + NatText(m) + [ArcMinute]))
      == Some(d as real + m as real / 60.0)
  {
    var t := Some(NatText(d) + [Degree] + NatText(m) + [ArcMinute]);
    DegreesMinutesPieces(NatText(d), NatText(m));
    ParseNatText(d);
    ParseNatText(m);
    ConvertedFromPieces(t, NatText(d), NatText(m), d, m);
  }

  /** A coordinate whose degrees and minutes texts parse converts to
      degrees plus a sixtieth of the minutes. */
  lemma ConvertedFromPieces(t: Option<string>, ds: string, ms: string, d: nat, m: nat)
    requires DegreesPart(t) == Some(ds) && MinutesPart(t) == Some(ms)
    requires ParseDecimal(ds) == Some(d as real) && ParseDecimal(ms) == Some(m as real)
    ensures Convertible(t) && DecimalDegrees(t) == Some(d as real + m as real / 60.0)
  {
  }

  /** A coordinate without a degree sign is not an error: its minutes are
      missing, and so is the result. */
  lemma NoDegreeSignIsMissing(t: string)
    requires Degree !in t && ParseDecimal(t).Some?
    ensures Convertible(Some(t)) && DecimalDegrees(Some(t)) == None
  {
    SplitOnAbsent(t, Degree);
  }

  /** The two coordinate fields are cut at their slash: longitude and X are
      the text before it, latitude and Y the text after it, all kept as text
      at this stage. */
  lemma SlashPieces(st: Station, lon: string, lat: string, x: string, y: string)
    requires Slash !in lon && Slash !in lat && Slash !in x && Slash !in y
    requires st.lonLat == lon + [Slash] + lat && st.coordinates == x + [Slash] + y
    ensures LonText(st) == Some(lon) && LatText(st) == Some(lat)
    ensures XText(st) == x && YText(st) == Some(y)
  {
    SplitOnFirst(lon, Slash, lat);
    SplitOnAbsent(lat, Slash);
    SplitOnFirst(x, Slash, y);
    SplitOnAbsent(y, Slash);
  }

  /** The text of a worked example and the degrees it denotes. */
  lemma WorkedExample(d: nat, m: nat, text: string, value: real)
    requires text == NatText(d) + [Degree] + NatText(m) + [ArcMinute]
    requires value == d as real + m as real / 60.0
    ensures Convertible(Some(text)) && DecimalDegrees(Some(text)) == Some(value)
  {
    DegreesAndMinutes(d, m);
  }

  /** A worked example: 8°54' is 8.9 degrees. */
  lemma EightFiftyFour()
    ensures Convertible(Some("8\U{B0}54'")) && DecimalDegrees(Some("8\U{B0}54'")) == Some(8.9)
  {
    TwoDigitText(5, 4);
    assert NatText(54) == "54" && NatText(8) == "8";
    assert "8\U{B0}54'" == NatText(8) + [Degree] + NatText(54) + [ArcMinute];
    WorkedExample(8, 54, "8\U{B0}54'", 8.9);
  }

  /** A worked example: 47°30' is 47.5 degrees. */
  lemma FortySevenThirty()
    ensures Convertible(Some("47\U{B0}30'")) && DecimalDegrees(Some("47\U{B0}30'")) == Some(47.5)
  {
    TwoDigitText(4, 7);
    TwoDigitText(3, 0);
    assert NatText(47) == "47" && NatText(30) == "30";
    assert "47\U{B0}30'" == NatText(47) + [Degree] + NatText(30) + [ArcMinute];
    WorkedExample(47, 30, "47\U{B0}30'", 47.5);
  }
}

=== FILE: numbers.dfy ===
/** Decimal text to exact numbers: the part of Python's `float(...)` (and of
    `pd.to_numeric`) that the station and precipitation files exercise,
    evaluated over `real` instead of IEEE doubles. */
module Numbers {
  import opened Common
  import opened Text

  predicate IsDigit(c: char)
  {
    '0' <= c <= '9'
  }

  predicate AllDigits(s: string)
  {
    forall i :: 0 <= i < |s| ==> IsDigit(s[i])
  }

  function DigitValue(c: char): nat
    requires IsDigit(c)
  {
    c as int - '0' as int
  }

  function DigitChar(d: nat): (c: char)
    requires d < 10
    ensures IsDigit(c) && DigitValue(c) == d
  {
    ('0' as int + d) as char
  }

  /** The value of a run of decimal digits, most significant first. */
  function DigitsValue(s: string): nat
    requires AllDigits(s)
  {
    if s == [] then 0 else DigitsValue(s[..|s| - 1]) * 10 + DigitValue(s[|s| - 1])
  }

  /** `x` with its decimal point moved `k` places to the right, i.e. `x * 10^k`. */
  function Shift(x: real, k: nat): real
  {
    if k == 0 then x else 10.0 * Shift(x, k - 1)
  }

  lemma {:induction false} ShiftAdd(x: real, y: real, k: nat)
    ensures Shift(x + y, k) == Shift(x, k) + Shift(y, k)
  {
    if k > 0 {
      ShiftAdd(x, y, k - 1);
    }
  }

  lemma {:induction false} ShiftOnce(x: real, k: nat)
    ensures Shift(x, k + 1) == Shift(10.0 * x, k)
  {
    if k > 0 {
      ShiftOnce(x, k - 1);
    }
  }

  /** The value of the digits after a decimal point: each digit is worth a
      tenth of the one before it. */
  function FractionValue(s: string): real
    requires AllDigits(s)
  {
    if s == [] then 0.0 else (DigitValue(s[0]) as real + FractionValue(s[1..])) / 10.0
  }

  /** The leading digit of a run of n digits is worth its value shifted n-1 places. */
  lemma {:induction false} LeadingDigit(s: string)
    requires |s| > 0 && AllDigits(s)
    ensures DigitsValue(s) as real == Shift(DigitValue(s[0]) as real, |s| - 1) + DigitsValue(s[1..]) as real
  {
    if |s| > 1 {
      var init := s[..|s| - 1];
      LeadingDigit(init);
      assert init[0] == s[0];
      assert init[1..] == s[1..][..|s[1..]| - 1];
    } else {
      assert s[1..] == [];
    }
  }

  /** Shifted by their count, the fraction digits are worth their value as a
      whole number: ".25" moved two places is 25. */
  lemma {:induction false} ShiftedFraction(s: string)
    requires AllDigits(s)
    ensures Shift(FractionValue(s), |s|) == DigitsValue(s) as real
  {
    if s != [] {
      var rest := s[1..];
      var d := DigitValue(s[0]) as real;
      ShiftedFraction(rest);
      LeadingDigit(s);
      ShiftOnce(FractionValue(s), |rest|);
      assert 10.0 * FractionValue(s) == d + FractionValue(rest);
      ShiftAdd(d, FractionValue(rest), |rest|);
    }
  }

  /** The text of a decimal number as `float` accepts it: an optional sign,
      digits, and optionally a point followed by digits, with at least one
      digit overall ("54", "8.9", "-3", ".5", "5."). Anything else is
      `None`, the text `float` would refuse. */
  function ParseDecimal(s: string): Option<real>
  {
    if |s| > 0 && s[0] == '-' then
      var m := UnsignedDecimal(s[1..]);
      if m.Some? then Some(-m.value) else None
    else if |s| > 0 && s[0] == '+' then UnsignedDecimal(s[1..])
    else UnsignedDecimal(s)
  }

  /** A decimal number without its sign: digits, and optionally a point
      followed by digits, with at least one digit overall. */
  function UnsignedDecimal(body: string): Option<real>
  {
    var pieces := SplitOn(body, '.');
    var whole := pieces[0];
    var fraction := if |pieces| == 2 then pieces[1] else "";
    if |pieces| <= 2 && AllDigits(whole) && AllDigits(fraction) && |whole| + |fraction| > 0 then
      Some(DigitsValue(whole) as real + FractionValue(fraction))
    else
      None
  }

  /** Only text holding a digit is a number. */
  lemma NumberHasDigit(s: string)
    ensures ParseDecimal(s).Some? ==> exists i :: 0 <= i < |s| && IsDigit(s[i])
  {
    var signed := |s| > 0 && (s[0] == '+' || s[0] == '-');
    var body := if signed then s[1..] else s;
    if UnsignedDecimal(body).Some? {
      var pieces := SplitOn(body, '.');
      JoinSplitOn(body, '.');
      var whole := pieces[0];
      var fraction := if |pieces| == 2 then pieces[1] else "";
      if |whole| > 0 {
        assert body[0] == whole[0];
      } else {
        assert body[1] == fraction[0];
      }
    }
  }

  /** Conversely, every accepted text is an optional sign followed by digits,
      with at most one decimal point and at least one digit. */
  lemma AcceptedIsDecimal(s: string)
    requires ParseDecimal(s).Some?
    ensures exists sign, w, f ::
      && (sign == "" || sign == "+" || sign == "-")
      && AllDigits(w) && AllDigits(f) && |w| + |f| > 0
      && (s == sign + w || s == sign + w + "." + f)
  {
    var sign, body := AcceptedSign(s);
    var w, f := AcceptedBody(body);
    if body == w {
      assert s == sign + w;
    } else {
      assert s == sign + w + "." + f;
    }
  }

  /** An accepted text is an optional sign and an accepted unsigned part. */
  lemma AcceptedSign(s: string) returns (sign: string, body: string)
    requires ParseDecimal(s).Some?
    ensures sign == "" || sign == "+" || sign == "-"
    ensures s == sign + body && UnsignedDecimal(body).Some?
  {
    if |s| > 0 && (s[0] == '+' || s[0] == '-') {
      sign, body := [s[0]], s[1..];
    } else {
      sign, body := "", s;
    }
  }

  /** The unsigned part of an accepted text: digits, then possibly a point
      and more digits. */
  lemma AcceptedBody(body: string) returns (w: string, f: string)
    requires UnsignedDecimal(body).Some?
    ensures AllDigits(w) && AllDigits(f) && |w| + |f| > 0
    ensures body == w || body == w + "." + f
  {
    var pieces := SplitOn(body, '.');
    JoinSplitOn(body, '.');
    w := pieces[0];
    if |pieces| == 2 {
      f := pieces[1];
      assert Join(pieces[1..], ".") == f;
    } else {
      f := "";
    }
  }

  /** The decimal rendering of a natural number, as `str(n)` writes it. */
  function NatText(n: nat): (s: string)
    ensures |s| > 0 && AllDigits(s)
  {
    if n < 10 then [DigitChar(n)] else NatText(n / 10) + [DigitChar(n % 10)]
  }

  /** A two-digit number is written as its two digits. */
  lemma TwoDigitText(a: nat, b: nat)
    requires 0 < a < 10 && b < 10
    ensures NatText(10 * a + b) == [DigitChar(a), DigitChar(b)]
  {
    assert (10 * a + b) / 10 == a && (10 * a + b) % 10 == b;
  }

  lemma {:induction false} DigitsOfNatText(n: nat)
    ensures DigitsValue(NatText(n)) == n
  {
    var s := NatText(n);
    if n < 10 {
      assert s[..|s| - 1] == [];
    } else {
      assert s[..|s| - 1] == NatText(n / 10);
      DigitsOfNatText(n / 10);
    }
  }

  /** Round trip: the rendering of a natural number parses back to that number. */
  lemma ParseNatText(n: nat)
    ensures ParseDecimal(NatText(n)) == Some(n as real)
  {
    var s := NatText(n);
    SplitOnAbsent(s, '.');
    DigitsOfNatText(n);
    assert DigitsValue("") == 0;
  }

  /** A run of digits holds no sign, point or other non-digit character. */
  lemma NoDigitIsSign(s: string, c: char)
    requires AllDigits(s) && !IsDigit(c)
    ensures c !in s
  {
  }

  /** Round trip for fixed-point text: whole digits, a point and fraction
      digits parse to the value of the whole digits plus the value of the
      fraction digits (which `ShiftedFraction` relates to the digits' own value). */
  lemma ParseFixedPoint(w: string, f: string)
    requires |w| > 0 && AllDigits(w) && AllDigits(f)
    ensures ParseDecimal(w + "." + f) == Some(DigitsValue(w) as real + FractionValue(f))
  {
    var s := w + "." + f;
    NoDigitIsSign(w, '.');
    NoDigitIsSign(f, '.');
    assert s == w + ['.'] + f;
    SplitOnFirst(w, '.', f);
    SplitOnAbsent(f, '.');
    assert s[0] == w[0];
    ParseUnsigned(s, w, f);
  }

  /** Text that starts with a digit and splits at its one point into two
      runs of digits has their whole and fractional value. */
  lemma ParseUnsigned(s: string, w: string, f: string)
    requires s != [] && IsDigit(s[0])
    requires SplitOn(s, '.') == [w, f] && |w| > 0 && AllDigits(w) && AllDigits(f)
    ensures ParseDecimal(s) == Some(DigitsValue(w) as real + FractionValue(f))
  {
    assert ParseDecimal(s) == UnsignedDecimal(s);
  }

  /** The example "0.3". */
  lemma PointThree()
    ensures ParseDecimal("0.3") == Some(0.3)
  {
    assert "0.3" == "0" + "." + "3";
    ParseFixedPoint("0", "3");
    assert DigitsValue("0") == 0;
    assert FractionValue("3") == 0.3 by { assert "3"[1..] == ""; }
  }

  /** The example "8.25". */
  lemma EightPointTwoFive()
    ensures ParseDecimal("8.25") == Some(8.25)
  {
    assert "8.25" == "8" + "." + "25";
    ParseFixedPoint("8", "25");
    assert DigitsValue("8") == 8;
    assert FractionValue("25") == 0.25 by {
      assert "25"[1..] == "5" && "5"[1..] == "";
    }
  }

  /** A leading minus sign negates the value and accepts exactly the same texts. */
  lemma ParseNegated(t: string)
    requires t == [] || (t[0] != '+' && t[0] != '-')
    ensures ParseDecimal("-" + t).Some? <==> ParseDecimal(t).Some?
    ensures ParseDecimal(t).Some? ==> ParseDecimal("-" + t).value == -ParseDecimal(t).value
  {
    assert ("-" + t)[1..] == t;
  }
}

=== FILE: pipeline.dfy ===
/** The entry point: the stations of every legend file are gathered into one
    list and normalised into the station table, and the precipitation tables
    of every data file are read and concatenated. */
module Pipeline {
  import opened Common
  import opened Stations
  import opened Coordinates
  import opened Precipitation

  /** The `stations` list after the loop over the legend files. */
  function AllStations(files: seq<seq<string>>): (r: Result<seq<Station>>)
    ensures r.Err? ==> r.error == HeaderNotFound || r.error.MarkerNotFound? || r.error.TooFewTokens?
    ensures files == [] ==> r == Ok([])
  {
    CollectMap(files, ReadLegend);
    match Collect(Map(files, ReadLegend))
    case Err(e) => Err(e)
    case Ok(lists) => Ok(Flatten(lists))
  }

  /** The loop of the entry point that extends `stations` with each file's
      records; the first file that fails ends it. */
  method CollectStations(files: seq<seq<string>>) returns (r: Result<seq<Station>>)
    ensures r == AllStations(files)
  {
    ghost var rs := Map(files, ReadLegend);
    var stations: seq<Station> := [];
    ghost var lists: seq<seq<Station>> := [];
    for i := 0 to |files|
      invariant |lists| == i
      invariant forall j :: 0 <= j < i ==> rs[j] == Ok(lists[j])
      invariant stations == Flatten(lists)
    {
      var more := ReadLegend(files[i]);
      assert rs[i] == more;
      if more.Err? {
        CollectStopsAt(rs, i);
        return Err(more.error);
      }
      FlattenSnoc(lists, more.value);
      assert forall j :: 0 <= j <= i ==> rs[j] == Ok((lists + [more.value])[j]);
      lists := lists + [more.value];
      stations := stations + more.value;
    }
    CollectAll(rs, lists);
    r := Ok(stations);
  }

  /** Each file's records, when every file reads. */
  function StationLists(files: seq<seq<string>>): (lists: seq<seq<Station>>)
    requires forall i :: 0 <= i < |files| ==> ReadLegend(files[i]).Ok?
    ensures |lists| == |files|
  {
    seq(|files|, i requires 0 <= i < |files| => ReadLegend(files[i]).value)
  }

  /** The collected records are every file's records, concatenated in file
      order with nothing merged or dropped; a failure is that of the first
      file that does not read. */
  lemma StationsInFileOrder(files: seq<seq<string>>)
    ensures AllStations(files).Ok? <==> forall i :: 0 <= i < |files| ==> ReadLegend(files[i]).Ok?
    ensures AllStations(files).Ok? ==>
      && AllStations(files).value == Flatten(StationLists(files))
      && |AllStations(files).value| == TotalLength(StationLists(files))
    ensures AllStations(files).Err? ==>
      exists k :: 0 <= k < |files| && ReadLegend(files[k]) == Err(AllStations(files).error) &&
        forall j :: 0 <= j < k ==> ReadLegend(files[j]).Ok?
  {
    CollectMap(files, ReadLegend);
    if AllStations(files).Ok? {
      assert Collect(Map(files, ReadLegend)).value == StationLists(files);
      FlattenLength(StationLists(files));
    }
  }

  /** `pd.concat(data)` over the `data` list the loop builds; the
      concatenation refuses an empty list. */
  function CombinedData(tables: seq<Table>): (r: Result<seq<Observation>>)
    ensures r.Err? ==>
      r.error == NothingToConcatenate || r.error == MissingColumn(TimeColumn) || r.error == TooFewColumns
    ensures tables == [] ==> r == Err(NothingToConcatenate)
  {
    CollectMap(tables, PrecipitationTable);
    match Collect(Map(tables, PrecipitationTable))
    case Err(e) => Err(e)
    case Ok(data) => if data == [] then Err(NothingToConcatenate) else Ok(Flatten(data))
  }

  /** The data concatenate exactly when there is at least one table and every
      table reads; otherwise the error is the first failing table's. */
  lemma CombinedDataOutcome(tables: seq<Table>)
    ensures CombinedData(tables).Ok? <==>
      |tables| > 0 && forall i :: 0 <= i < |tables| ==> PrecipitationTable(tables[i]).Ok?
    ensures CombinedData(tables).Err? && tables != [] ==>
      exists k :: 0 <= k < |tables| && PrecipitationTable(tables[k]) == Err(CombinedData(tables).error) &&
        forall j :: 0 <= j < k ==> PrecipitationTable(tables[j]).Ok?
  {
    CollectMap(tables, PrecipitationTable);
  }

  /** The loop of the entry point that appends each file's table to `data`,
      followed by their concatenation. */
  method CollectData(tables: seq<Table>) returns (r: Result<seq<Observation>>)
    ensures r == CombinedData(tables)
  {
    ghost var rs := Map(tables, PrecipitationTable);
    var data: seq<seq<Observation>> := [];
    for i := 0 to |tables|
      invariant |data| == i
      invariant forall j :: 0 <= j < i ==> rs[j] == Ok(data[j])
    {
      var table := ReadPrecipitationData(tables[i]);
      assert rs[i] == table;
      if table.Err? {
        CollectStopsAt(rs, i);
        return Err(table.error);
      }
      data := data + [table.value];
    }
    CollectAll(rs, data);
    if data == [] {
      return Err(NothingToConcatenate);
    }
    r := Ok(Flatten(data));
  }

  /** Each file's observations, when every file reads. */
  function TableLists(tables: seq<Table>): (data: seq<seq<Observation>>)
    requires forall i :: 0 <= i < |tables| ==> PrecipitationTable(tables[i]).Ok?
    ensures |data| == |tables|
  {
    seq(|tables|, i requires 0 <= i < |tables| => PrecipitationTable(tables[i]).value)
  }

  /** The concatenated table holds every file's rows in file order, as many
      as the file tables together; no row is merged or dropped. */
  lemma DataRowCount(tables: seq<Table>)
    requires CombinedData(tables).Ok?
    ensures |tables| > 0
    ensures forall i :: 0 <= i < |tables| ==> PrecipitationTable(tables[i]).Ok?
    ensures CombinedData(tables).value == Flatten(TableLists(tables))
    ensures |CombinedData(tables).value| == TotalLength(TableLists(tables))
  {
    CollectMap(tables, PrecipitationTable);
    assert Collect(Map(tables, PrecipitationTable)).value == TableLists(tables);
    FlattenLength(TableLists(tables));
  }

  /** The entry point without its plot: collect the stations, normalise them,
      then collect and concatenate the precipitation tables; the first
      exception ends the run. */
  method Run(legends: seq<seq<string>>, tables: seq<Table>)
    returns (r: Result<(seq<StationRow>, seq<Observation>)>)
    ensures AllStations(legends).Err? ==> r == Err(AllStations(legends).error)
    ensures r.Ok? <==>
      && AllStations(legends).Ok?
      && AllStations(legends).value != []
      && (forall i :: 0 <= i < |AllStations(legends).value| ==>
            Convertible(LonText(AllStations(legends).value[i])) &&
            Convertible(LatText(AllStations(legends).value[i])))
      && CombinedData(tables).Ok?
    ensures r.Ok? ==>
      && AllStations(legends).Ok?
      && CombinedData(tables).Ok?
      && |r.value.0| == |AllStations(legends).value| > 0
      && (forall i :: 0 <= i < |r.value.0| ==> r.value.0[i].station == AllStations(legends).value[i])
      && r.value.1 == CombinedData(tables).value
    ensures r.Ok? ==>
      forall i :: 0 <= i < |r.value.0| ==>
        var st := AllStations(legends).value[i];
        r.value.0[i] == StationRow(st, DecimalDegrees(LonText(st)), DecimalDegrees(LatText(st)),
                                   XText(st), YText(st))
    ensures AllStations(legends).Ok? && AllStations(legends).value == [] ==> r == Err(NoStations)
    ensures
      && AllStations(legends).Ok?
      && AllStations(legends).value != []
      && !(forall i :: 0 <= i < |AllStations(legends).value| ==>
             Convertible(LonText(AllStations(legends).value[i])) &&
             Convertible(LatText(AllStations(legends).value[i])))
      ==> r.Err? && r.error.NotANumber?
    ensures
      && AllStations(legends).Ok?
      && AllStations(legends).value != []
      && (forall i :: 0 <= i < |AllStations(legends).value| ==>
            Convertible(LonText(AllStations(legends).value[i])) &&
            Convertible(LatText(AllStations(legends).value[i])))
      && r.Err?
      ==> r == Err(CombinedData(tables).error)
  {
    var stations :- CollectStations(legends);
    var frame :- ConvertToDataFrame(stations);
    var data :- CollectData(tables);
    r := Ok((frame, data));
  }
}

=== FILE: precipitation.dfy ===
/** The precipitation reader (`read_precipitation_data`): keep the daily rows
    of a delimited table, coerce its third to fifth columns to numbers and
    derive the date from the `time` text. */
module Precipitation {
  import opened Common
  import opened Numbers
  import opened Text

  const TimeColumn := "time"

  /** A daily `time` value is written YYYYMMDD. */
  const DayTimeLength := 8

  /** The positions of the three columns coerced to numbers. */
  const FirstValueColumn := 2
  const LastValueColumn := 4

  /** A table as the delimited reader returns it: the header row and the data
      rows, every cell as its text. */
  datatype Table = Table(header: seq<string>, rows: seq<seq<string>>)

  /** The parts of a YYYYMMDD text. */
  datatype Date = Date(year: string, month: string, day: string)

  /** A kept row: its cells, its `time` text, the derived date, and the
      coerced values of columns 2, 3 and 4 (`None` is the missing marker). */
  datatype Observation = Observation(
    cells: seq<string>,
    time: string,
    date: Date,
    values: seq<Option<real>>)

  /** The text of cell `j`; a row too short to have it holds a missing value,
      whose text is "nan". */
  function CellText(row: seq<string>, j: nat): string
  {
    if j < |row| then row[j] else "nan"
  }

  /** `pd.to_numeric(..., errors='coerce')` on one cell: the number, or the
      missing marker for text that is not a number. */
  function Coerce(row: seq<string>, j: nat): Option<real>
  {
    if j < |row| then ParseDecimal(row[j]) else None
  }

  /** The row mask `df['time'].astype(str).str.len() == 8`, with the time in column `t`. */
  function HasDayTime(t: nat): seq<string> -> bool
  {
    row => |CellText(row, t)| == DayTimeLength
  }

  /** The observation a kept row becomes. */
  function Observe(row: seq<string>, t: nat): (o: Observation)
    requires HasDayTime(t)(row)
    ensures o.cells == row && o.time == CellText(row, t)
    ensures |o.time| == DayTimeLength && o.date.year + o.date.month + o.date.day == o.time
    ensures |o.date.year| == 4 && |o.date.month| == 2 && |o.date.day| == 2
    ensures |o.values| == LastValueColumn - FirstValueColumn + 1
    ensures forall j :: FirstValueColumn <= j <= LastValueColumn ==>
      o.values[j - FirstValueColumn] == Coerce(row, j)
  {
    var time := CellText(row, t);
    assert time == time[..4] + time[4..6] + time[6..];
    Observation(row, time, Date(time[..4], time[4..6], time[6..]),
      [Coerce(row, 2), Coerce(row, 3), Coerce(row, 4)])
  }

  /** What `read_precipitation_data` returns for a table. */
  function PrecipitationTable(table: Table): (r: Result<seq<Observation>>)
    ensures r.Ok? <==> TimeColumn in table.header && |table.header| > LastValueColumn
    ensures TimeColumn !in table.header ==> r == Err(MissingColumn(TimeColumn))
    ensures TimeColumn in table.header && |table.header| <= LastValueColumn ==> r == Err(TooFewColumns)
    ensures r.Ok? ==>
      var kept := Filter(table.rows, HasDayTime(IndexOf(table.header, TimeColumn).value));
      && |r.value| == |kept|
      && forall k :: 0 <= k < |kept| ==>
           && r.value[k].cells == kept[k]
           && r.value[k].time == CellText(kept[k], IndexOf(table.header, TimeColumn).value)
           && |r.value[k].time| == DayTimeLength
           && |r.value[k].values| == 3
           && forall j :: FirstValueColumn <= j <= LastValueColumn ==>
                r.value[k].values[j - FirstValueColumn] == Coerce(kept[k], j)
  {
    match IndexOf(table.header, TimeColumn)
    case None => Err(MissingColumn(TimeColumn))
    case Some(t) =>
      if |table.header| <= LastValueColumn then Err(TooFewColumns)
      else
        Ok(Observations(Filter(table.rows, HasDayTime(t)), t))
  }

  /** The observations of rows that all hold a daily time, one per row. */
  function Observations(kept: seq<seq<string>>, t: nat): (obs: seq<Observation>)
    requires forall k :: 0 <= k < |kept| ==> HasDayTime(t)(kept[k])
    ensures |obs| == |kept| && forall k :: 0 <= k < |kept| ==> obs[k] == Observe(kept[k], t)
  {
    seq(|kept|, k requires 0 <= k < |kept| => Observe(kept[k], t))
  }

  /** `read_precipitation_data` computed column by column, in the order the
      source assigns its frame's columns: the row mask, the three coerced
      columns, the `time` text and the date. It changes no state. */
  method ReadPrecipitationData(table: Table) returns (r: Result<seq<Observation>>)
    ensures r == PrecipitationTable(table)
  {
    var time := IndexOf(table.header, TimeColumn);
    if time.None? {
      return Err(MissingColumn(TimeColumn));
    }
    var t := time.value;
    var rows := Filter(table.rows, HasDayTime(t));
    if |table.header| <= LastValueColumn {
      return Err(TooFewColumns);
    }
    var n := |rows|;
    var column2 := seq(n, k requires 0 <= k < n => Coerce(rows[k], 2));
    var column3 := seq(n, k requires 0 <= k < n => Coerce(rows[k], 3));
    var column4 := seq(n, k requires 0 <= k < n => Coerce(rows[k], 4));
    var times := seq(n, k requires 0 <= k < n => CellText(rows[k], t));
    var dates := seq(n, k requires 0 <= k < n && |times[k]| == DayTimeLength =>
      Date(times[k][..4], times[k][4..6], times[k][6..]));
    r := Ok(seq(n, k requires 0 <= k < n =>
      Observation(rows[k], times[k], dates[k], [column2[k], column3[k], column4[k]])));
    assert r.value == PrecipitationTable(table).value;
  }

  /** A row of the table is kept exactly when its `time` text has eight characters. */
  lemma KeptIffDayTime(table: Table, row: seq<string>)
    requires PrecipitationTable(table).Ok?
    requires row in table.rows
    ensures
      var t := IndexOf(table.header, TimeColumn).value;
      var obs := PrecipitationTable(table).value;
      |CellText(row, t)| == DayTimeLength <==> exists k :: 0 <= k < |obs| && obs[k].cells == row
  {
    var t := IndexOf(table.header, TimeColumn).value;
    var kept := Filter(table.rows, HasDayTime(t));
    var obs := PrecipitationTable(table).value;
    FilterMembers(table.rows, HasDayTime(t));
    if |CellText(row, t)| == DayTimeLength {
      assert row in kept;
      var k :| 0 <= k < |kept| && kept[k] == row;
      assert obs[k].cells == row;
    }
  }

  /** Kept rows stay in their original order: reading the rows of two tables
      with the same header one after the other is reading their concatenation. */
  lemma KeptInOrder(header: seq<string>, a: seq<seq<string>>, b: seq<seq<string>>)
    requires PrecipitationTable(Table(header, a)).Ok?
    ensures
      PrecipitationTable(Table(header, a + b)).value ==
        PrecipitationTable(Table(header, a)).value + PrecipitationTable(Table(header, b)).value
  {
    var t := IndexOf(header, TimeColumn).value;
    FilterAppend(a, b, HasDayTime(t));
    ObservationsAppend(Filter(a, HasDayTime(t)), Filter(b, HasDayTime(t)), t);
  }

  lemma ObservationsAppend(ka: seq<seq<string>>, kb: seq<seq<string>>, t: nat)
    requires forall k :: 0 <= k < |ka| ==> HasDayTime(t)(ka[k])
    requires forall k :: 0 <= k < |kb| ==> HasDayTime(t)(kb[k])
    ensures Observations(ka + kb, t) == Observations(ka, t) + Observations(kb, t)
  {
    assert forall k :: 0 <= k < |ka + kb| ==> HasDayTime(t)((ka + kb)[k]);
  }

  /** Coercion never drops a kept row: a value that is not a number becomes
      the missing marker. */
  lemma UnparsableIsMissing(table: Table, k: nat, j: nat)
    requires PrecipitationTable(table).Ok?
    requires k < |PrecipitationTable(table).value|
    requires FirstValueColumn <= j <= LastValueColumn
    requires ParseDecimal(CellText(PrecipitationTable(table).value[k].cells, j)).None?
    ensures PrecipitationTable(table).value[k].values[j - FirstValueColumn] == None
  {
  }

  /** Coercing a cell is parsing its text: a missing cell's text "nan" is
      not a number either. */
  lemma CoerceIsParse(row: seq<string>, j: nat)
    ensures Coerce(row, j) == ParseDecimal(CellText(row, j))
  {
    if j >= |row| {
      NumberHasDigit("nan");
    }
  }

  /** A kept row's value in column 2, 3 or 4 is the number its cell's text
      spells, whenever the text is a number. */
  lemma ParsableIsNumber(table: Table, k: nat, j: nat, v: real)
    requires PrecipitationTable(table).Ok?
    requires k < |PrecipitationTable(table).value|
    requires FirstValueColumn <= j <= LastValueColumn
    requires ParseDecimal(CellText(PrecipitationTable(table).value[k].cells, j)) == Some(v)
    ensures PrecipitationTable(table).value[k].values[j - FirstValueColumn] == Some(v)
  {
    CoerceIsParse(PrecipitationTable(table).value[k].cells, j);
  }

  /** The worked examples: "20230101" is a daily time, "2023" and "total"
      are not, and "--" is coerced to the missing marker. */
  lemma WorkedExamples()
    ensures HasDayTime(0)(["20230101"]) && !HasDayTime(0)(["2023"]) && !HasDayTime(0)(["total"])
    ensures Coerce(["20230101", "x", "--"], 2) == None
  {
    SplitOnAbsent("-", '.');
  }
}

=== FILE: stations.dfy ===
/** The metadata parser: one legend line becomes a station record
    (`parse_station_line`), and a legend file, given as the lines it holds,
    becomes the list of records that follow its header line
    (`read_station_data_from_file`). */
module Stations {
  import opened Common
  import opened Text

  /** The parameter code looked for first, and the one tried when it is absent. */
  const PrimaryMarker := "rka150d0"
  const FallbackMarker := "rre150d0"

  /** The literal start of the header line: "stn", seven spaces, "Name". */
  const HeaderPrefix := "stn       Name"

  /** How many lines of a legend file are read. */
  const LinesRead := 100

  /** One row of the legend, with the seven keys of the record the parser builds. */
  datatype Station = Station(
    stn: string,
    name: string,              // "Name"
    parameter: string,         // "Parameter"
    dataSource: string,        // "Data source"
    lonLat: string,            // "Longitude/Latitude", as D°M'/D°M'
    coordinates: string,       // "Coordinates [km]", as X/Y
    elevation: string)         // "Elevation [m]"

  /** The position of the parameter marker among the tokens: the first
      `rka150d0`, or failing that the first `rre150d0`. */
  function MarkerIndex(parts: seq<string>): (r: Option<nat>)
    ensures r.None? <==> PrimaryMarker !in parts && FallbackMarker !in parts
    ensures r.Some? ==> r.value < |parts|
    ensures PrimaryMarker in parts ==>
      r.Some? && parts[r.value] == PrimaryMarker &&
      forall j :: 0 <= j < r.value ==> parts[j] != PrimaryMarker
    ensures PrimaryMarker !in parts && FallbackMarker in parts ==>
      r.Some? && parts[r.value] == FallbackMarker &&
      forall j :: 0 <= j < r.value ==> parts[j] != FallbackMarker
  {
    match IndexOf(parts, PrimaryMarker)
    case Some(i) => Some(i)
    case None => IndexOf(parts, FallbackMarker)
  }

  /** The record cut from the tokens around the marker at `idx`: the first
      token, the tokens up to the marker, the marker, the tokens up to the
      last three, and the last three. */
  function Cut(parts: seq<string>, idx: nat): (st: Station)
    requires idx < |parts| && |parts| >= 3
    ensures st.stn == parts[0] && st.parameter == parts[idx]
    ensures [st.lonLat, st.coordinates, st.elevation] == parts[|parts| - 3..]
  {
    Station(
      parts[0],
      Join(Slice(parts, 1, idx), " "),
      parts[idx],
      Join(Slice(parts, idx + 1, -3), " "),
      parts[|parts| - 3],
      parts[|parts| - 2],
      parts[|parts| - 1])
  }

  /** `parse_station_line`: split the line on whitespace, find the marker and
      cut the tokens around it and around the last three. */
  function ParseStationLine(line: string): (r: Result<Station>)
    ensures r.Err? ==> r.error == MarkerNotFound(line) || r.error == TooFewTokens(line)
  {
    var parts := Tokens(line);
    match MarkerIndex(parts)
    case None => Err(MarkerNotFound(line))
    case Some(idx) =>
      if |parts| < 3 then Err(TooFewTokens(line)) else Ok(Cut(parts, idx))
  }

  /** The line parser's outcome: no marker raises, a marker among fewer than
      three tokens raises the index error, and otherwise the record holds the
      first token, the marker and the last three tokens. */
  lemma ParseStationLineOutcome(line: string)
    ensures ParseStationLine(line) == Err(MarkerNotFound(line)) <==>
      PrimaryMarker !in Tokens(line) && FallbackMarker !in Tokens(line)
    ensures ParseStationLine(line) == Err(TooFewTokens(line)) <==>
      (PrimaryMarker in Tokens(line) || FallbackMarker in Tokens(line)) && |Tokens(line)| < 3
    ensures ParseStationLine(line).Ok? <==>
      (PrimaryMarker in Tokens(line) || FallbackMarker in Tokens(line)) && |Tokens(line)| >= 3
    ensures ParseStationLine(line).Ok? ==>
      var parts := Tokens(line);
      var st := ParseStationLine(line).value;
      && st.stn == parts[0]
      && st.parameter == parts[MarkerIndex(parts).value]
      && st.lonLat == parts[|parts| - 3]
      && st.coordinates == parts[|parts| - 2]
      && st.elevation == parts[|parts| - 1]
  {
  }

  lemma JoinedTokens(ts: seq<string>)
    requires forall i :: 0 <= i < |ts| ==> IsToken(ts[i])
    ensures Tokens(Join(ts, " ")) == ts
    ensures Join(ts, " ") == "" <==> ts == []
  {
    TokensOfJoin(ts);
  }

  lemma CutTokens(parts: seq<string>, idx: nat)
    requires idx < |parts| && |parts| >= 3
    requires forall i :: 0 <= i < |parts| ==> IsToken(parts[i])
    ensures
      var st := Cut(parts, idx);
      && Tokens(st.name) == (if 1 < idx then parts[1..idx] else [])
      && (st.name == "" <==> idx <= 1)
      && Tokens(st.dataSource) == (if idx + 1 < |parts| - 3 then parts[idx + 1..|parts| - 3] else [])
      && (st.dataSource == "" <==> idx + 1 >= |parts| - 3)
  {
    var name := Slice(parts, 1, idx);
    var source := Slice(parts, idx + 1, -3);
    assert forall i :: 0 <= i < |name| ==> IsToken(name[i]);
    assert forall i :: 0 <= i < |source| ==> IsToken(source[i]);
    JoinedTokens(name);
    JoinedTokens(source);
  }

  /** The name is the single-space join of the tokens between the station id
      and the marker, and the data source that of the tokens between the
      marker and the last three. */
  lemma NameAndSourceText(line: string)
    requires ParseStationLine(line).Ok?
    ensures
      var parts := Tokens(line);
      var idx := MarkerIndex(parts).value;
      var st := ParseStationLine(line).value;
      && st.name == Join(if 1 < idx then parts[1..idx] else [], " ")
      && st.dataSource == Join(if idx + 1 < |parts| - 3 then parts[idx + 1..|parts| - 3] else [], " ")
  {
    ParsedIsCut(line);
  }

  /** The name is made of exactly the tokens between the station id and the
      marker, and the data source of exactly those between the marker and the
      last three; each is empty when its range is. */
  lemma NameAndSourceTokens(line: string)
    requires ParseStationLine(line).Ok?
    ensures
      var parts := Tokens(line);
      var idx := MarkerIndex(parts).value;
      var st := ParseStationLine(line).value;
      && Tokens(st.name) == (if 1 < idx then parts[1..idx] else [])
      && (st.name == "" <==> idx <= 1)
      && Tokens(st.dataSource) == (if idx + 1 < |parts| - 3 then parts[idx + 1..|parts| - 3] else [])
      && (st.dataSource == "" <==> idx + 1 >= |parts| - 3)
  {
    var parts := Tokens(line);
    ParsedIsCut(line);
    var idx := MarkerIndex(parts).value;
    CutTokens(parts, idx);
    assert ParseStationLine(line).value == Cut(parts, idx);
  }

  /** A line that parses is cut around its marker. */
  lemma ParsedIsCut(line: string)
    requires ParseStationLine(line).Ok?
    ensures MarkerIndex(Tokens(line)).Some? && MarkerIndex(Tokens(line)).value < |Tokens(line)|
    ensures |Tokens(line)| >= 3
    ensures ParseStationLine(line) == Ok(Cut(Tokens(line), MarkerIndex(Tokens(line)).value))
  {
  }

  lemma CutReassembles(parts: seq<string>, idx: nat)
    requires 1 <= idx <= |parts| - 4
    requires forall i :: 0 <= i < |parts| ==> IsToken(parts[i])
    ensures
      var st := Cut(parts, idx);
      parts ==
        [st.stn] + Tokens(st.name) + [st.parameter] + Tokens(st.dataSource)
        + [st.lonLat, st.coordinates, st.elevation]
  {
    CutTokens(parts, idx);
    SplitAround(parts, idx);
  }

  lemma SplitAround<T>(s: seq<T>, idx: nat)
    requires 1 <= idx <= |s| - 4
    ensures s == [s[0]] + s[1..idx] + [s[idx]] + s[idx + 1..|s| - 3] + [s[|s| - 3], s[|s| - 2], s[|s| - 1]]
  {
    var n := |s|;
    assert s == s[..1] + s[1..idx] + s[idx..idx + 1] + s[idx + 1..n - 3] + s[n - 3..];
  }

  /** When the marker sits strictly between the station id and the last
      three tokens, the record's fields give back every token of the line,
      in order. */
  lemma LineReassembles(line: string)
    requires ParseStationLine(line).Ok?
    requires 1 <= MarkerIndex(Tokens(line)).value <= |Tokens(line)| - 4
    ensures
      var st := ParseStationLine(line).value;
      Tokens(line) ==
        [st.stn] + Tokens(st.name) + [st.parameter] + Tokens(st.dataSource)
        + [st.lonLat, st.coordinates, st.elevation]
  {
    ParsedIsCut(line);
    CutReassembles(Tokens(line), MarkerIndex(Tokens(line)).value);
  }

  /** Where the lines of a legend file end up after the read: the first 100
      lines, or the text of the exception when the file is shorter. */
  datatype LineSource = Lines(lines: seq<string>) | ErrorText(text: string)

  /** The `try`/`except` of the read: 100 calls to `next(file)`, the message
      of the `StopIteration` (the empty string) when the file runs out. */
  function FirstLines(file: seq<string>): (r: LineSource)
    ensures r.Lines? <==> |file| >= LinesRead
    ensures r.Lines? ==> |r.lines| == LinesRead && forall i :: 0 <= i < LinesRead ==> r.lines[i] == file[i]
    ensures r.ErrorText? ==> r.text == ""
  {
    if |file| >= LinesRead then Lines(file[..LinesRead]) else ErrorText("")
  }

  /** What `enumerate(lines)` walks over: the lines, or the one-character
      strings of the exception text. */
  function Items(src: LineSource): (items: seq<string>)
    ensures src.Lines? ==> items == src.lines
    ensures src.ErrorText? ==>
      |items| == |src.text| && forall i :: 0 <= i < |items| ==> |items[i]| == 1 && items[i][0] == src.text[i]
  {
    match src
    case Lines(ls) => ls
    case ErrorText(t) => seq(|t|, i requires 0 <= i < |t| => [t[i]])
  }

  /** The header search of `read_station_data_from_file`: the first item that
      starts with the header prefix. */
  function HeaderIndex(items: seq<string>): (r: Option<nat>)
    ensures r.None? <==> forall i :: 0 <= i < |items| ==> !StartsWith(items[i], HeaderPrefix)
    ensures r.Some? ==>
      r.value < |items| && StartsWith(items[r.value], HeaderPrefix) &&
      forall j :: 0 <= j < r.value ==> !StartsWith(items[j], HeaderPrefix)
  {
    if items == [] then None
    else if StartsWith(items[0], HeaderPrefix) then Some(0)
    else match HeaderIndex(items[1..])
      case None => None
      case Some(i) => Some(i + 1)
  }

  /** A line the comprehension keeps: `line.strip()` is non-empty. */
  function HasContent(line: string): bool
  {
    !IsBlank(line)
  }

  /** The comprehension over the lines after the header: the records of
      the non-blank lines, or the first failure among them. */
  function ParseLines(lines: seq<string>): (r: Result<seq<Station>>)
    ensures r.Err? ==> r.error.MarkerNotFound? || r.error.TooFewTokens?
  {
    var kept := Filter(lines, HasContent);
    CollectMap(kept, ParseStationLine);
    Collect(Map(kept, ParseStationLine))
  }

  lemma ParseKeptLines(lines: seq<string>)
    ensures ParseLines(lines) == Collect(Map(Filter(lines, HasContent), ParseStationLine))
  {
  }

  /** The comprehension succeeds exactly when every non-blank line parses. */
  lemma SucceedsIffAllParse(lines: seq<string>)
    ensures
      var kept := Filter(lines, HasContent);
      ParseLines(lines).Ok? <==> forall k :: 0 <= k < |kept| ==> ParseStationLine(kept[k]).Ok?
  {
    ParseKeptLines(lines);
    CollectMap(Filter(lines, HasContent), ParseStationLine);
  }

  /** On success, the comprehension yields one record per non-blank line, in order. */
  lemma OneRecordPerContentLine(lines: seq<string>)
    requires ParseLines(lines).Ok?
    ensures
      var kept := Filter(lines, HasContent);
      var sts := ParseLines(lines).value;
      && |sts| == |kept|
      && forall k :: 0 <= k < |kept| ==> ParseStationLine(kept[k]) == Ok(sts[k])
  {
    ParseKeptLines(lines);
    CollectMap(Filter(lines, HasContent), ParseStationLine);
  }

  /** A failure is that of the first non-blank line that does not parse. */
  lemma FirstFailureReported(lines: seq<string>)
    requires ParseLines(lines).Err?
    ensures
      var kept := Filter(lines, HasContent);
      exists k :: 0 <= k < |kept| && ParseStationLine(kept[k]) == Err(ParseLines(lines).error) &&
        forall j :: 0 <= j < k ==> ParseStationLine(kept[j]).Ok?
  {
    ParseKeptLines(lines);
    CollectMap(Filter(lines, HasContent), ParseStationLine);
  }

  /** `read_station_data_from_file`, over the lines the file holds. */
  function ReadLegend(file: seq<string>): (r: Result<seq<Station>>)
    ensures r.Err? ==> r.error == HeaderNotFound || r.error.MarkerNotFound? || r.error.TooFewTokens?
    ensures |file| < LinesRead ==> r == Err(HeaderNotFound)
  {
    var items := Items(FirstLines(file));
    match HeaderIndex(items)
    case None => Err(HeaderNotFound)
    case Some(h) => ParseLines(items[h + 1..])
  }

  /** The read fails for want of a header exactly when the file is shorter
      than 100 lines or none of its first 100 lines starts with the prefix. */
  lemma HeaderMissingIff(file: seq<string>)
    ensures ReadLegend(file) == Err(HeaderNotFound) <==>
      |file| < LinesRead || forall i :: 0 <= i < LinesRead ==> !StartsWith(file[i], HeaderPrefix)
  {
    var items := Items(FirstLines(file));
    if HeaderIndex(items).Some? {
      var h := HeaderIndex(items).value;
      assert ParseLines(items[h + 1..]) != Err(HeaderNotFound);
    }
  }

  /** Whatever the text of the exception, no one-character item can start
      with the header prefix, so the header search fails. */
  lemma NoHeaderInErrorText(t: string)
    ensures HeaderIndex(Items(ErrorText(t))).None?
  {
    var items := Items(ErrorText(t));
    forall i | 0 <= i < |items|
      ensures !StartsWith(items[i], HeaderPrefix)
    {
      assert |items[i]| == 1;
    }
  }

  /** Only the first 100 lines of a file are ever looked at. */
  lemma OnlyFirstLinesRead(file: seq<string>, more: seq<string>)
    requires |file| >= LinesRead
    ensures ReadLegend(file + more) == ReadLegend(file)
  {
    assert (file + more)[..LinesRead] == file[..LinesRead];
  }

  /** The header search finds the first line that starts with the prefix. */
  lemma HeaderAt(items: seq<string>, h: nat)
    requires h < |items| && StartsWith(items[h], HeaderPrefix)
    requires forall j :: 0 <= j < h ==> !StartsWith(items[j], HeaderPrefix)
    ensures HeaderIndex(items) == Some(h)
  {
  }

  /** With a header among the first 100 lines, the records are those of the
      non-blank lines after the first header line and before line 100; the
      header and everything above it contribute nothing. */
  lemma RecordsFollowHeader(file: seq<string>, h: nat)
    requires LinesRead <= |file| && h < LinesRead
    requires StartsWith(file[h], HeaderPrefix)
    requires forall j :: 0 <= j < h ==> !StartsWith(file[j], HeaderPrefix)
    ensures ReadLegend(file) == ParseLines(file[h + 1..LinesRead])
  {
    var items := file[..LinesRead];
    assert Items(FirstLines(file)) == items;
    HeaderAt(items, h);
    assert items[h + 1..] == file[h + 1..LinesRead];
  }
}

=== FILE: text.dfy ===
/** The Python string operations the script's parsers are built from:
    `str.split()` with no argument, `str.split(sep)` with a one-character
    separator, `sep.join(...)`, `str.startswith` and the truth value of
    `str.strip()`. */
module Text {

  /** The characters Python's `str.isspace` accepts, which is what `split()`
      and `strip()` without arguments separate on and remove. */
  predicate IsWhitespace(c: char)
  {
    || '\t' <= c <= '\r'
    || '\U{1C}' <= c <= '\U{1F}'
    || c == ' '
    || c == '\U{85}'
    || c == '\U{A0}'
    || c == '\U{1680}'
    || '\U{2000}' <= c <= '\U{200A}'
    || c == '\U{2028}'
    || c == '\U{2029}'
    || c == '\U{202F}'
    || c == '\U{205F}'
    || c == '\U{3000}'
  }

  /** A piece that `split()` can produce: non-empty and free of whitespace. */
  predicate IsToken(w: string)
  {
    |w| > 0 && forall i :: 0 <= i < |w| ==> !IsWhitespace(w[i])
  }

  /** True when `s.strip()` is the empty string, i.e. the line is falsy in `if line.strip()`. */
  predicate IsBlank(s: string)
  {
    forall i :: 0 <= i < |s| ==> IsWhitespace(s[i])
  }

  predicate StartsWith(s: string, prefix: string)
  {
    |prefix| <= |s| && s[..|prefix|] == prefix
  }

  /** The longest prefix of `s` that holds no whitespace. */
  function Word(s: string): (w: string)
    ensures |w| <= |s| && w == s[..|w|]
    ensures forall i :: 0 <= i < |w| ==> !IsWhitespace(w[i])
    ensures |w| < |s| ==> IsWhitespace(s[|w|])
  {
    if s == [] || IsWhitespace(s[0]) then [] else [s[0]] + Word(s[1..])
  }

  /** `s.split()`: the maximal runs of non-whitespace characters, in order. */
  function Tokens(s: string): (ts: seq<string>)
    ensures forall i :: 0 <= i < |ts| ==> IsToken(ts[i])
    decreases |s|
  {
    if s == [] then []
    else if IsWhitespace(s[0]) then Tokens(s[1..])
    else
      var w := Word(s);
      [w] + Tokens(s[|w|..])
  }

  /** `sep.join(ts)`. */
  function Join(ts: seq<string>, sep: string): string
  {
    if ts == [] then ""
    else if |ts| == 1 then ts[0]
    else ts[0] + sep + Join(ts[1..], sep)
  }

  /** `s.split(c)` for a one-character separator: always at least one piece,
      and no piece holds the separator. */
  function SplitOn(s: string, c: char): (ps: seq<string>)
    ensures |ps| >= 1
    ensures forall i :: 0 <= i < |ps| ==> c !in ps[i]
  {
    if s == [] then [""]
    else
      var rest := SplitOn(s[1..], c);
      if s[0] == c then [""] + rest else [[s[0]] + rest[0]] + rest[1..]
  }

  lemma {:induction false} WordOfToken(w: string, rest: string)
    requires IsToken(w)
    requires rest == [] || IsWhitespace(rest[0])
    ensures Word(w + rest) == w
  {
    if |w| > 1 {
      assert (w + rest)[1..] == w[1..] + rest;
      WordOfToken(w[1..], rest);
    } else {
      assert (w + rest)[1..] == rest;
    }
  }

  /** A token followed by whitespace (or by nothing) is split off whole. */
  lemma TokensOfTokenThen(w: string, rest: string)
    requires IsToken(w)
    requires rest == [] || IsWhitespace(rest[0])
    ensures Tokens(w + rest) == [w] + Tokens(rest)
  {
    WordOfToken(w, rest);
    assert (w + rest)[|w|..] == rest;
  }

  /** Round trip: splitting a space-joined list of tokens gives the tokens back. */
  lemma {:induction false} TokensOfJoin(ts: seq<string>)
    requires forall i :: 0 <= i < |ts| ==> IsToken(ts[i])
    ensures Tokens(Join(ts, " ")) == ts
  {
    if |ts| == 1 {
      TokensOfTokenThen(ts[0], "");
      assert ts[0] + "" == ts[0];
    } else if |ts| > 1 {
      var rest := Join(ts[1..], " ");
      TokensOfJoin(ts[1..]);
      assert ts[0] + " " + rest == ts[0] + (" " + rest);
      TokensOfTokenThen(ts[0], " " + rest);
      assert (" " + rest)[1..] == rest;
    }
  }

  /** Leading whitespace, however long, is skipped by `split()`. */
  lemma {:induction false} TokensSkipsBlank(b: string, s: string)
    requires IsBlank(b)
    ensures Tokens(b + s) == Tokens(s)
  {
    if b == [] {
      assert b + s == s;
    } else {
      assert (b + s)[0] == b[0] && IsWhitespace(b[0]);
      assert (b + s)[1..] == b[1..] + s;
      TokensSkipsBlank(b[1..], s);
    }
  }

  /** The text `gaps[0] + ts[0] + gaps[1] + ... + ts[n-1] + gaps[n]`: tokens
      with the runs of characters around and between them. */
  function Padded(ts: seq<string>, gaps: seq<string>): string
    requires |gaps| == |ts| + 1
  {
    if ts == [] then gaps[0] else gaps[0] + ts[0] + Padded(ts[1..], gaps[1..])
  }

  /** `split()` returns exactly the tokens of a line laid out as tokens
      separated by non-empty runs of whitespace, with optional whitespace
      before the first and after the last. */
  lemma {:induction false} TokensOfPadded(ts: seq<string>, gaps: seq<string>)
    requires |gaps| == |ts| + 1
    requires forall i :: 0 <= i < |ts| ==> IsToken(ts[i])
    requires forall i :: 0 <= i < |gaps| ==> IsBlank(gaps[i])
    requires forall i :: 0 < i < |ts| ==> gaps[i] != []
    ensures Tokens(Padded(ts, gaps)) == ts
  {
    if ts == [] {
      BlankIffNoTokens(gaps[0]);
    } else {
      var rest := Padded(ts[1..], gaps[1..]);
      TokensOfPadded(ts[1..], gaps[1..]);
      assert gaps[0] + ts[0] + rest == gaps[0] + (ts[0] + rest);
      TokensSkipsBlank(gaps[0], ts[0] + rest);
      PaddedStart(ts[1..], gaps[1..]);
      TokensOfTokenThen(ts[0], rest);
    }
  }

  /** A padded text whose leading gap is whitespace begins with whitespace,
      or is empty. */
  lemma PaddedStart(ts: seq<string>, gaps: seq<string>)
    requires |gaps| == |ts| + 1 && IsBlank(gaps[0])
    requires ts == [] || gaps[0] != []
    ensures Padded(ts, gaps) == [] || IsWhitespace(Padded(ts, gaps)[0])
  {
    if ts != [] {
      assert Padded(ts, gaps)[0] == gaps[0][0];
    }
  }

  /** `line.strip()` is empty exactly when `line.split()` is. */
  lemma {:induction false} BlankIffNoTokens(s: string)
    ensures IsBlank(s) <==> Tokens(s) == []
  {
    if s != [] && IsWhitespace(s[0]) {
      BlankIffNoTokens(s[1..]);
      assert IsBlank(s) <==> IsBlank(s[1..]);
    }
  }

  /** Round trip: joining the pieces of `s.split(c)` with `c` gives `s` back. */
  lemma {:induction false} JoinSplitOn(s: string, c: char)
    ensures Join(SplitOn(s, c), [c]) == s
  {
    if s != [] {
      var rest := SplitOn(s[1..], c);
      JoinSplitOn(s[1..], c);
      if s[0] == c {
        assert s == [c] + s[1..];
      } else if |rest| == 1 {
        assert s == [s[0]] + rest[0];
      } else {
        assert Join(rest, [c]) == rest[0] + [c] + Join(rest[1..], [c]);
        assert s == [s[0]] + s[1..];
      }
    }
  }

  /** A string without the separator is its own single piece. */
  lemma {:induction false} SplitOnAbsent(s: string, c: char)
    requires c !in s
    ensures SplitOn(s, c) == [s]
  {
    if s != [] {
      SplitOnAbsent(s[1..], c);
      assert s == [s[0]] + s[1..];
    }
  }

  /** The first piece ends at the first separator; the rest is split on its own. */
  lemma {:induction false} SplitOnFirst(a: string, c: char, b: string)
    requires c !in a
    ensures SplitOn(a + [c] + b, c) == [a] + SplitOn(b, c)
  {
    if a == [] {
      assert (a + [c] + b)[1..] == b;
    } else {
      assert (a + [c] + b)[1..] == a[1..] + [c] + b;
      SplitOnFirst(a[1..], c, b);
      assert a == [a[0]] + a[1..];
    }
  }
}
